=== FILE: README.md ===
# Inventory management dashboard — a Dafny model

This project models the core of a small inventory dashboard. A MongoDB
collection holds products, each with `product_id`, `product_name`,
`product_price` and `product_quantity`. The browser UI offers login/logout,
a product table, and Update / Delete / Add buttons that change one product
at a time. The model has five modules:

- `Documents` (documents.dfy): field values, documents as `map<string, Value>`,
  and equality-filter matching with MongoDB's rules. Integers and doubles
  compare numerically. A `null` in the filter also matches a missing field.
- `Collection` (collection.dfy): the collection as an ordered `seq<Doc>` plus
  a counter for generated `_id` values. It has `insert_one`, `find`,
  `update_one` (`$set`), `delete_one` and ordered `insert_many`. Update and
  delete act on the first matching document only.
- `Backend` (backend.dfy): the `logged_in` session gate in front of
  `create`/`read`/`update`/`delete`, and the empty-filter guard of `delete`.
  It also holds `login`/`logout`, where the server's answer and the success of
  `close()` are explicit boolean inputs, the gate of `deleteDatabase`, and the
  projection of documents into table records without `_id`.
- `Frontend` (frontend.dfy): `button_pressed` is split into a pure planner
  (`PlanAction`) that chooses the single mutation and the callback
  (`ButtonPressed`) that issues it and re-reads the table. It also has
  `login_pressed` and `update_form`.
- `Driver` (driver.dfy): the start-up provisioning. It registers the user only
  when that user is missing, builds the 100-entry seed list, and seeds the
  collection only when it does not exist yet.

Outcomes the source prints to the console are `Report` tags. Exceptions that
escape a callback are the `Crashed` / `Crash` outcome. In `button_pressed`,
lines 135-136 and the delete branch's `id[0]` (line 155) run outside any
`try`, so these inputs end the callback with an uncaught error:

- an empty table;
- a selected index outside the frame;
- a table without a `product_id` column;
- a Delete with nothing selected.

The same missing selection in the Update branch is caught and only prints.

The code makes these choices, and the model follows them:

- Prices and quantities are not checked for being non-negative.
- After a failed Update the table is still re-read, not left as it was.
- A Delete without a selected row is an uncaught error, not a validation
  report.
- `logout` does not check for a held connection; a failing `close()` is just
  the `closed = false` input.

## Model

| member | source | states |
|---|---|---|
| Collection.InsertOne | inventory_management_backend.py:84 | `insert_one` appends exactly one document: `data`, given a generated `_id` if it had none. It is refused, with the collection unchanged, exactly when that `_id` is already taken. |
| Collection.FreshInsertSucceeds | inventory_management_backend.py:84 | Inserting a document without `_id` always succeeds while the id counter is ahead of every stored identifier. |
| Collection.Find | inventory_management_backend.py:106 | `find` returns the documents that match the filter and no others. On a one-document collection it returns that document exactly when it matches. |
| Collection.FindDistributes | inventory_management_backend.py:106 | `find` keeps iteration order and multiplicity: the result on a concatenation is the result on the first part followed by the result on the second. |
| Collection.FindAllIsEverything | inventory_management_backend.py:106 | `find` with the empty filter returns the whole collection in iteration order. |
| Collection.FirstMatch | inventory_management_backend.py:127 | Finds the first document in iteration order that matches the filter, or reports that none matches. |
| Collection.UpdateOne | inventory_management_backend.py:127 | `update_one` applies the `$set` to the first matching document: the patch's fields take the patch's values. All other documents and fields stay the same. A non-operator update document is refused. A `$set` that would change `_id` is refused, and otherwise the update goes through. |
| Collection.UpdateOneKeepsIdsBelowCounter | inventory_management_backend.py:127 | An applied update keeps every generated identifier below the store's counter. |
| Collection.DeleteOne | inventory_management_backend.py:157 | `delete_one` removes the first matching document and keeps the others in order. With no match, nothing changes. |
| Collection.DeleteOneKeepsIdsBelowCounter | inventory_management_backend.py:157 | A delete keeps every remaining generated identifier below the store's counter. |
| Collection.DeleteOneRemovesOnlyTheMatch | inventory_management_backend.py:157 | The documents after a delete are the documents before it minus exactly the matched one, counted as a multiset. |
| Collection.InsertMany | driver.py:55 | After an ordered `insert_many` that succeeds, the collection is the old one followed by one document per batch entry, in order. Each appended document has an `_id` and otherwise exactly the fields of its entry. |
| Collection.FreshInsertManySucceeds | driver.py:55 | A batch of documents without `_id` is stored whole, in order. Each document keeps its fields. The generated identifiers are the counter's next values in turn, so they are distinct from each other and from every identifier already stored, and the counter ends past them. |
| Backend.Login | inventory_management_backend.py:20-47 | The session is logged in exactly when the server accepts the credentials. The collection is untouched. |
| Backend.Logout | inventory_management_backend.py:50-65 | The session is logged out when `close()` succeeds. When `close()` fails, the session is unchanged and the failure is reported. |
| Backend.Create | inventory_management_backend.py:68-88 | Logged out: nothing changes and "login first" is reported. Logged in: either exactly one document is appended, or the insert fails and nothing changes. |
| Backend.CreateAppendsOne | inventory_management_backend.py:84 | A logged-in create of a document without `_id` adds exactly that document after the existing ones, with a generated `_id`. |
| Backend.Read | inventory_management_backend.py:91-107 | Logged out: nothing is returned. Logged in: the documents matching the query are returned. |
| Backend.ReadAllIsStore | inventory_management_backend.py:106 | A logged-in read with the empty filter returns the whole collection, in order. |
| Backend.Update | inventory_management_backend.py:110-131 | Logged out: nothing changes. Logged in: the `$set` is applied to the first matching document, and no other document or field changes. A `$set` that matches nothing changes nothing and prints nothing. It is refused, changing nothing, exactly when the update is not an operator document or would change `_id`. |
| Backend.Delete | inventory_management_backend.py:134-161 | Logged out: nothing changes. A missing or empty filter is refused even when logged in. Otherwise exactly the first matching document is removed. |
| Backend.DeleteDatabase | inventory_management_backend.py:195-209 | Logged out: a no-op. Logged in: the product collection ends up empty. |
| Backend.FieldsOf | inventory_management_backend.py:172 | The table's columns are exactly the fields that occur in some document. |
| Backend.UniformDocsProjectExactly | inventory_management_backend.py:185-192 | When all documents share the same fields, the columns are those fields minus `_id`, and each record is its document without `_id`. |
| Backend.ToRecords | inventory_management_backend.py:164-192 | There is one record per document, in order. No record has `_id`. Each record has exactly the non-`_id` columns, with the document's value or NaN where the document lacks the field. The missing-`_id` case is flagged. |
| Frontend.PlanAction | inventory_management_frontend.py:135-173 | The plan is an uncaught error exactly when the selected rows cannot be located, or when Delete is chosen with nothing selected. Priority is update, then delete, then add. A price or quantity that does not parse means no mutation and reports the conversion error; a planned mutation reports nothing itself. Update and Delete are keyed by the selected row's `product_id`, and Update sets only name, price and quantity. Add uses the last row's id plus one. |
| Frontend.ButtonPressed | inventory_management_frontend.py:110-180 | Logged out: returns no data, no columns and zero counters, with no store call. Logged in: the callback crashes exactly when the selection cannot be located or a Delete has no selected row. Otherwise the counters are reset to 0 and the returned table is a fresh read of the store after the call. |
| Frontend.ButtonPressedPerformsPlan | inventory_management_frontend.py:139-175 | A logged-in call that does not crash ends in the state the planned mutation produces. |
| Frontend.PerformWritesAtMostOne | inventory_management_frontend.py:139-169 | Issuing any single planned mutation appends, replaces or removes at most one document. |
| Frontend.ButtonPressedWritesAtMostOne | inventory_management_frontend.py:139-158 | One call changes the collection by at most one write: one document appended, replaced or removed. |
| Frontend.UnparsableFieldsWriteNothing | inventory_management_frontend.py:139-173 | On Update or Add, a price or quantity that does not parse leaves the session and store unchanged and reports the conversion error. |
| Frontend.UpdateKeepsOtherFields | inventory_management_frontend.py:135-147 | Update changes no field other than name, price and quantity, so `product_id` and `_id` are never altered. Only the first document whose `product_id` matches the selected row's can change. |
| Frontend.UpdateSetsSelectedFields | inventory_management_frontend.py:135-147 | Update with a price and quantity that parse writes the form's name, price and quantity into the first document whose `product_id` matches the selected row's. When none matches, the store is unchanged. |
| Frontend.DeleteRemovesSelected | inventory_management_frontend.py:154-155 | Delete removes the first document whose `product_id` matches the selected row's, and nothing else. |
| Frontend.AddFollowsLastRow | inventory_management_frontend.py:158-169 | Add appends exactly one document: the form's fields, with `product_id` equal to the last displayed row's id plus one. |
| Frontend.AddCanReuseStoredId | inventory_management_frontend.py:164-169 | If the last displayed row's id is k and the store already holds a product with id k+1, Add stores a second product with id k+1. Add follows the last displayed row, not the largest id. |
| Frontend.PerformKeepsIdsBelowCounter | inventory_management_frontend.py:139-169 | Issuing any mutation that names no `_id` keeps every generated identifier below the store's counter. |
| Frontend.ButtonPressedKeepsIdsBelowCounter | inventory_management_frontend.py:110-180 | Every invocation keeps the counter ahead of the stored identifiers, so the Add lemmas hold after any sequence of presses. |
| Frontend.LoginPressed | inventory_management_frontend.py:238-290 | If logged in, logs out. If logged out, logs in only with a non-empty username and password that the server accepts. A failed login shows "Invalid Credentials!". Logged in afterwards: label "Logout", a fresh table, login inputs hidden, modification inputs shown. Logged out: label "Login", no data, no columns, and the opposite visibility. |
| Frontend.LoginThenLogoutRoundTrip | inventory_management_frontend.py:246-266 | Logging in with accepted, non-empty credentials shows "Logout". Pressing again with a successful close returns exactly to the logged-out session. |
| Frontend.LoginPressedKeepsIdsBelowCounter | inventory_management_frontend.py:238-290 | Logging in or out keeps the counter ahead of the stored identifiers. |
| Frontend.Highlights | inventory_management_frontend.py:317 | There is one highlight style per selected index, in order, each with that index and the highlight colour. |
| Frontend.UpdateForm | inventory_management_frontend.py:302-319 | No selection gives no styles. Otherwise there is one style per selected index, in order, with `row_index` equal to that index. |
| Driver.BuildSeedList | driver.py:46-53 | The loop builds exactly 100 entries, and entry `i` is the blank product with id `i`. |
| Driver.SeedListShape | driver.py:49-53 | Every seed entry has exactly the four product fields, `product_id == i`, an empty name, and price and quantity 0. |
| Driver.SeedIdsIncrease | driver.py:49-50 | The seed ids strictly increase along the list, so they are pairwise distinct. |
| Driver.Seed | driver.py:45-55 | An existing collection is left unchanged. A missing one is created holding the inserted list in order, each entry with a generated `_id`. |
| Driver.Register | driver.py:31-34 | The user is registered afterwards. The registry changes only when that user was not already registered. |
| Driver.RegisterIsIdempotent | driver.py:31-34 | Registering the same user a second time changes nothing. |
| Driver.Start | driver.py:31-55 | Start-up registers the user. It seeds the 100 blank products only if the collection does not exist, and otherwise leaves the collection unchanged. |
| Driver.SeededTableEndsAt99 | driver.py:49-55 | The table read from a freshly seeded collection has 100 rows, and the last row's `product_id` is 99. |
| Driver.SeededAddAssignsId100 | inventory_management_frontend.py:164-169 | After seeding, Add appends one product with `product_id` 100 and keeps the seeded documents. |

## Left out

- Dash layout, server start-up and the `delete_database` callback
  (inventory_management_frontend.py:16-85, 322-340): UI framework configuration.
- Connection mechanics: host, port, the connection timeout, `server_info`,
  `createUser`/`dropUser`, `drop_database` and `list_collection_names`. These
  are I/O. Their outcomes are inputs: whether the server accepts the
  credentials, whether `close()` succeeds, whether the collection exists, and
  the set of registered users.
- Store failures such as a dropped connection or a failed write concern are not
  modelled. The only refusals modelled are a duplicate `_id`, a non-operator
  update document and a `$set` that changes `_id`.
- Integer width: model integers are unbounded, but BSON stores integers in 64
  bits. pymongo raises `OverflowError` when it encodes an integer outside
  [-2^63, 2^63), and `create` and `update` catch that error and print their
  failure message. A quantity such as `int("9223372036854775808")` parses, so
  the source refuses that Update or Add while the model applies it. The same
  holds for an Add whose last displayed id is 2^63 - 1. So
  `Frontend.UpdateSetsSelectedFields`, `Frontend.AddFollowsLastRow`,
  `Collection.FreshInsertSucceeds` and the rest of the model speak only of
  integers inside that range.
- Filters: only field-equality filters are modelled. Query operators, arrays
  and embedded documents are not.
- Backend.DeleteDatabase: models only the gate and the emptied collection.
  Dropping the user, closing the client and opening the admin connection are
  administrative I/O. Afterwards the source keeps `logged_in` true but points
  its collection handle at the admin users collection, on a closed client. The
  returned session therefore does not describe later `create`/`read`/`update`/
  `delete` calls, which the model would run against the empty product
  collection.
- Backend.ToRecords: columns are a set, because Dafny maps have no key order.
  pandas orders columns by first appearance, and that order is not modelled.
  pandas dtype inference is not modelled either: an integer column that holds
  NaN becomes float.
- Frontend.PlanAction: `float()` and `int()` are abstract parsers (`Parsers`),
  so IEEE-754 rounding and Python's numeric literal syntax are not modelled. A
  field that was never filled in (`None`) fails to parse. The parsed price is a
  real number, so `float("nan")` and `float("inf")`, which Python accepts and
  which would be stored as non-real doubles, are not modelled. The `.tolist()` call
  on an object-dtype column is not modelled: the new id is computed from the
  last cell's value kind.
- Frontend.ButtonPressed: client-side sort, filter and paging are not
  modelled; the displayed rows are simply an input sequence.
- Frontend.LoginPressed: the `login_clicks` argument is ignored because the
  source never reads it. The nine style dictionaries are two booleans: the two login inputs share one,
  and the seven modification inputs and buttons, Delete Database included, share
  the other.
- Collection.InsertMany: pymongo's `insert_many` refuses an empty batch, but the model
  accepts it as a no-op. Start-up always passes 100 entries, so that case is
  never reached.
- Collection.InsertMany: when a batch is refused part-way, the documents
  already inserted are not modelled. Start-up only inserts into a new, empty
  collection, where `Collection.FreshInsertManySucceeds` shows no refusal
  happens.
- Console messages are `Report` tags. `_id was not found!` is the `idFound`
  flag of the projection.

=== FILE: backend.dfy ===
/**
 The backend: a session flag that gates every store operation, the CRUD
 wrappers around the collection, and the projection of documents into
 table records without the storage identifier.
 */
module Backend {
  import opened Documents
  import opened Collection

  /** Whether a connection is held, and the collection behind it. */
  datatype Session = Session(loggedIn: bool, store: Store)

  /** The console message an operation prints, if any. */
  datatype Report =
    | Quiet
    | LoginFirst
    | InsertFailed
    | UpdateFailed
    | SpecifyDelete
    | CloseFailed
    | CannotConvert

  datatype Step = Step(session: Session, report: Report)

  /** `login`: the session is open exactly when the server accepted the
      credentials within the connection timeout. */
  function Login(s: Session, accepted: bool): (r: Session)
    ensures r.loggedIn <==> accepted
    ensures r.store == s.store
  {
    Session(accepted, s.store)
  }

  /** `logout`: the session closes only when closing the client succeeds;
      a failed close leaves everything as it was. */
  function Logout(s: Session, closed: bool): (r: Step)
    ensures closed ==> !r.session.loggedIn && r.report == Quiet
    ensures !closed ==> r.session == s && r.report == CloseFailed
    ensures r.session.store == s.store
  {
    if closed then Step(s.(loggedIn := false), Quiet) else Step(s, CloseFailed)
  }

  /** `create`: insert `data` as one new document. */
  function Create(s: Session, data: Doc): (r: Step)
    ensures !s.loggedIn ==> r == Step(s, LoginFirst)
    ensures r.session.loggedIn == s.loggedIn
    ensures s.loggedIn && r.report == Quiet ==>
      r.session.store.docs == s.store.docs + [Stamp(s.store, data)]
    ensures s.loggedIn && r.report != Quiet ==> r == Step(s, InsertFailed)
  {
    if !s.loggedIn then Step(s, LoginFirst)
    else match InsertOne(s.store, data)
      case Rejected => Step(s, InsertFailed)
      case Applied(st) => Step(s.(store := st), Quiet)
  }

  /** A logged-in `create` of a document without `_id` adds exactly that
      document, with a generated identifier, after the existing ones. */
  lemma CreateAppendsOne(s: Session, data: Doc)
    requires s.loggedIn && IdsBelowCounter(s.store) && IdKey !in data
    ensures var r := Create(s, data);
      && r.report == Quiet
      && |r.session.store.docs| == |s.store.docs| + 1
      && r.session.store.docs[..|s.store.docs|] == s.store.docs
      && StoredAs(r.session.store.docs[|s.store.docs|], data)
      && IdsBelowCounter(r.session.store)
  {
    FreshInsertSucceeds(s.store, data);
    var r := Create(s, data);
    assert r.session.store.docs[..|s.store.docs|] == s.store.docs;
  }

  /** `read`: the matching documents, or nothing when logged out. */
  function Read(s: Session, query: Doc): (r: Option<seq<Doc>>)
    ensures r.None? <==> !s.loggedIn
    ensures r.Some? ==> forall d :: d in r.value <==> d in s.store.docs && Matches(d, query)
  {
    if !s.loggedIn then None else Some(Find(s.store.docs, query))
  }

  /** A logged-in read with the empty filter is the whole collection, in order. */
  lemma ReadAllIsStore(s: Session)
    requires s.loggedIn
    ensures Read(s, map[]) == Some(s.store.docs)
  {
    FindAllIsEverything(s.store.docs);
  }

  /** `update`: apply the update document to the first match. */
  function Update(s: Session, query: Doc, update: UpdateDoc): (r: Step)
    ensures !s.loggedIn ==> r == Step(s, LoginFirst)
    ensures r.session.loggedIn == s.loggedIn
    ensures s.loggedIn && r.report != Quiet ==> r == Step(s, UpdateFailed)
    ensures s.loggedIn && update.NotOperator? ==> r == Step(s, UpdateFailed)
    ensures |r.session.store.docs| == |s.store.docs|
    ensures forall j :: 0 <= j < |s.store.docs| && r.session.store.docs[j] != s.store.docs[j] ==>
      && s.loggedIn
      && FirstMatch(s.store.docs, query) == Some(j)
      && Patched(s.store.docs[j], r.session.store.docs[j], update.patch)
    // a `$set` that matches nothing is not an error: nothing changes and nothing is printed
    ensures s.loggedIn && update.Set? && FirstMatch(s.store.docs, query).None? ==> r == Step(s, Quiet)
    // a `$set` reaching the first match is applied to it, unless it would change `_id`
    ensures s.loggedIn && update.Set? && FirstMatch(s.store.docs, query).Some? ==>
      var i := FirstMatch(s.store.docs, query).value;
      && (r.report == Quiet <==>
            (IdKey in update.patch ==> IdKey in s.store.docs[i] && s.store.docs[i][IdKey] == update.patch[IdKey]))
      && (r.report == Quiet ==> Patched(s.store.docs[i], r.session.store.docs[i], update.patch))
  {
    if !s.loggedIn then Step(s, LoginFirst)
    else match UpdateOne(s.store, query, update)
      case Rejected => Step(s, UpdateFailed)
      case Applied(st) => Step(s.(store := st), Quiet)
  }

  /** `delete`: remove the first match; a missing or empty filter is
      refused before the store is touched, since it would match the first
      document of the collection. */
  function Delete(s: Session, query: Option<Doc>): (r: Step)
    ensures !s.loggedIn ==> r == Step(s, LoginFirst)
    ensures s.loggedIn && (query.None? || query.value == map[]) ==> r == Step(s, SpecifyDelete)
    ensures r.session.loggedIn == s.loggedIn
    ensures r.session.store == s.store || (s.loggedIn && query.Some? && query.value != map[] &&
      FirstMatch(s.store.docs, query.value).Some?)
    ensures s.loggedIn && query.Some? && query.value != map[] ==>
      r.report == Quiet && match FirstMatch(s.store.docs, query.value)
        case None => r.session.store == s.store
        case Some(i) => r.session.store.docs == s.store.docs[..i] + s.store.docs[i + 1..]
  {
    if !s.loggedIn then Step(s, LoginFirst)
    else if query.None? || query.value == map[] then Step(s, SpecifyDelete)
    else Step(s.(store := DeleteOne(s.store, query.value)), Quiet)
  }

  /** `deleteDatabase`, as far as the session gate goes: logged out it does
      nothing; logged in the product database is dropped, which leaves an
      empty collection. The flag itself is not cleared. */
  function DeleteDatabase(s: Session): (r: Step)
    ensures !s.loggedIn ==> r == Step(s, LoginFirst)
    ensures s.loggedIn ==> r.session.loggedIn && r.session.store.docs == []
  {
    if !s.loggedIn then Step(s, LoginFirst)
    else Step(s.(store := s.store.(docs := [])), Quiet)
  }

  /** The table built from a set of documents: one record per document,
      the column names, and whether an `_id` column was there to drop. */
  datatype Projection = Projection(rows: seq<Doc>, columns: set<string>, idFound: bool)

  /** Every field name that occurs in some document. */
  function FieldsOf(docs: seq<Doc>): (r: set<string>)
    ensures forall k :: k in r <==> exists j :: 0 <= j < |docs| && k in docs[j]
    decreases |docs|
  {
    if |docs| == 0 then {}
    else
      var rest := FieldsOf(docs[1..]);
      assert forall k :: k in rest ==> exists j :: 0 <= j < |docs| && k in docs[j] by {
        forall k | k in rest ensures exists j :: 0 <= j < |docs| && k in docs[j] {
          var j' :| 0 <= j' < |docs[1..]| && k in docs[1..][j'];
          assert k in docs[j' + 1];
        }
      }
      docs[0].Keys + rest
  }

  /** One table record: every column, NaN where the document lacks it. */
  function Record(d: Doc, columns: set<string>): Doc {
    map k | k in columns :: if k in d then d[k] else Nan
  }

  /** `get_data_frame` followed by `convert_dataframe_to_dict`. */
  function ToRecords(docs: seq<Doc>): (p: Projection)
    ensures |p.rows| == |docs|
    ensures p.idFound <==> exists j :: 0 <= j < |docs| && IdKey in docs[j]
    ensures forall k :: k in p.columns <==> k != IdKey && exists j :: 0 <= j < |docs| && k in docs[j]
    ensures forall i :: 0 <= i < |docs| ==> IdKey !in p.rows[i] && p.rows[i].Keys == p.columns
    ensures forall i, k :: 0 <= i < |docs| && k in docs[i] && k != IdKey ==> p.rows[i][k] == docs[i][k]
    ensures forall i, k :: 0 <= i < |docs| && k in p.columns && k !in docs[i] ==> p.rows[i][k] == Nan
  {
    var fields := FieldsOf(docs);
    var columns := fields - {IdKey};
    Projection(seq(|docs|, i requires 0 <= i < |docs| => Record(docs[i], columns)), columns, IdKey in fields)
  }

  /** For documents that all have the same fields, the table is exactly the
      documents without `_id`: no cell is padded and nothing else is lost. */
  lemma UniformDocsProjectExactly(docs: seq<Doc>, fields: set<string>)
    requires forall i :: 0 <= i < |docs| ==> docs[i].Keys == fields
    ensures |docs| > 0 ==> ToRecords(docs).columns == fields - {IdKey}
    ensures forall i :: 0 <= i < |docs| ==> ToRecords(docs).rows[i] == docs[i] - {IdKey}
  {
    var p := ToRecords(docs);
    if |docs| > 0 {
      UniformColumns(docs, fields, p.columns);
      forall i | 0 <= i < |docs|
        ensures p.rows[i] == docs[i] - {IdKey}
      {
        RecordOfFullDoc(docs[i], p.rows[i], p.columns);
      }
    }
  }

  lemma UniformColumns(docs: seq<Doc>, fields: set<string>, columns: set<string>)
    requires |docs| > 0
    requires forall i :: 0 <= i < |docs| ==> docs[i].Keys == fields
    requires forall k :: k in columns <==> k != IdKey && exists j :: 0 <= j < |docs| && k in docs[j]
    ensures columns == fields - {IdKey}
  {
    forall k | k in fields - {IdKey} ensures k in columns {
      assert k in docs[0];
    }
    forall k | k in columns ensures k in fields - {IdKey} {
      var j :| 0 <= j < |docs| && k in docs[j];
      assert k in docs[j].Keys;
    }
  }

  lemma RecordOfFullDoc(d: Doc, row: Doc, columns: set<string>)
    requires columns == d.Keys - {IdKey}
    requires row.Keys == columns
    requires forall k :: k in d && k != IdKey ==> row[k] == d[k]
    ensures row == d - {IdKey}
  {
    assert row.Keys == (d - {IdKey}).Keys;
  }
}

=== FILE: collection.dfy ===
/**
 The product collection as the document store presents it to the backend:
 an ordered sequence of documents with single-document insert, update and
 delete, each acting on the FIRST document in iteration order that matches.
 */
module Collection {
  import opened Documents

  /** The documents in iteration order, and the counter the store draws
      fresh `_id` values from. */
  datatype Store = Store(docs: seq<Doc>, nextOid: nat)

  /** The outcome of a write: the new store, or a refusal that leaves the
      store as it was (the backend catches the exception). */
  datatype Write = Applied(store: Store) | Rejected

  /** The update document handed to `update_one`: a `$set` of fields, or a
      document without update operators, which the driver refuses. */
  datatype UpdateDoc = Set(patch: Doc) | NotOperator(doc: Doc)

  const EmptyStore := Store([], 0)

  predicate HasId(d: Doc, v: Value) {
    IdKey in d && SameValue(d[IdKey], v)
  }

  /** Some document of `docs` already carries the identifier `v`. */
  predicate IdTaken(docs: seq<Doc>, v: Value) {
    exists j :: 0 <= j < |docs| && HasId(docs[j], v)
  }

  /** Every generated identifier in the store lies below the counter, so
      the next generated one is fresh. */
  ghost predicate IdsBelowCounter(st: Store) {
    forall j :: 0 <= j < |st.docs| && IdKey in st.docs[j] && st.docs[j][IdKey].ObjectId? ==>
      st.docs[j][IdKey].n < st.nextOid
  }

  /** The document actually stored for `data`: `data` itself when it names
      its `_id`, otherwise `data` with a freshly generated one. */
  function Stamp(st: Store, data: Doc): (r: Doc)
    ensures IdKey in r
    ensures r - {IdKey} == data - {IdKey}
    ensures IdKey in data ==> r == data
    ensures IdKey !in data ==> r[IdKey] == ObjectId(st.nextOid)
  {
    if IdKey in data then data else data[IdKey := ObjectId(st.nextOid)]
  }

  /** `stored` is what the store keeps for `data`: the same fields, and
      an `_id` whether or not `data` named one. */
  predicate Stamped(stored: Doc, data: Doc) {
    IdKey in stored && stored - {IdKey} == data - {IdKey}
  }

  /** `d` carries the generated identifier number `n`. */
  predicate GeneratedAt(d: Doc, n: nat) {
    IdKey in d && d[IdKey] == ObjectId(n)
  }

  /** `stored` is what the store keeps for `data` when it generates the
      identifier: the same fields plus an `_id`. */
  predicate StoredAs(stored: Doc, data: Doc) {
    IdKey !in data && Stamped(stored, data)
  }

  /** A stored document keeps every field of the data it was made from. */
  lemma StoredFieldsKept(stored: Doc, data: Doc, k: string)
    requires StoredAs(stored, data) && k in data
    ensures k in stored && stored[k] == data[k]
  {
    assert k in stored - {IdKey};
  }

  /** `insert_one`: append one document, unless its `_id` is taken. */
  function InsertOne(st: Store, data: Doc): (r: Write)
    ensures r.Rejected? <==> IdTaken(st.docs, Stamp(st, data)[IdKey])
    ensures r.Applied? ==> r.store.docs == st.docs + [Stamp(st, data)]
    ensures r.Applied? && IdsBelowCounter(st) && IdKey !in data ==> IdsBelowCounter(r.store)
    ensures r.Applied? ==> r.store.nextOid == if IdKey in data then st.nextOid else st.nextOid + 1
  {
    var d := Stamp(st, data);
    if IdTaken(st.docs, d[IdKey]) then Rejected
    else Applied(Store(st.docs + [d], if IdKey in data then st.nextOid else st.nextOid + 1))
  }

  /** Inserting a document without `_id` into a store whose counter is
      ahead of its identifiers always succeeds. */
  lemma FreshInsertSucceeds(st: Store, data: Doc)
    requires IdsBelowCounter(st)
    requires IdKey !in data
    ensures InsertOne(st, data).Applied?
  {
  }

  /** The position of the first document that matches `query`, if any. */
  function FirstMatch(docs: seq<Doc>, query: Doc): (r: Option<nat>)
    ensures r.Some? ==> r.value < |docs| && Matches(docs[r.value], query)
    ensures r.Some? ==> forall j :: 0 <= j < r.value ==> !Matches(docs[j], query)
    ensures r.None? ==> forall j :: 0 <= j < |docs| ==> !Matches(docs[j], query)
    decreases |docs|
  {
    if |docs| == 0 then None
    else if Matches(docs[0], query) then Some(0)
    else match FirstMatch(docs[1..], query)
      case None => None
      case Some(i) => Some(i + 1)
  }

  /** `find`: the matching documents, in iteration order. */
  function Find(docs: seq<Doc>, query: Doc): (r: seq<Doc>)
    ensures |r| <= |docs|
    ensures |docs| == 1 ==> r == if Matches(docs[0], query) then docs else []
    ensures forall d :: d in r <==> d in docs && Matches(d, query)
    decreases |docs|
  {
    if |docs| == 0 then []
    else if Matches(docs[0], query) then [docs[0]] + Find(docs[1..], query)
    else Find(docs[1..], query)
  }

  /** `find` is an order-preserving filter: the matches of a concatenation
      are the matches of the first part followed by those of the second. */
  lemma {:induction false} FindDistributes(a: seq<Doc>, b: seq<Doc>, query: Doc)
    ensures Find(a + b, query) == Find(a, query) + Find(b, query)
    decreases |a|
  {
    if |a| == 0 {
      assert a + b == b;
    } else {
      assert (a + b)[0] == a[0];
      assert (a + b)[1..] == a[1..] + b;
      FindDistributes(a[1..], b, query);
    }
  }

  /** Reading with the empty filter returns the whole collection. */
  lemma {:induction false} FindAllIsEverything(docs: seq<Doc>)
    ensures Find(docs, map[]) == docs
    decreases |docs|
  {
    if |docs| > 0 {
      EmptyFilterMatchesAll(docs[0]);
      FindAllIsEverything(docs[1..]);
      assert [docs[0]] + docs[1..] == docs;
    }
  }

  /** `update_one`: apply the `$set` to the first matching document only. */
  function UpdateOne(st: Store, query: Doc, update: UpdateDoc): (r: Write)
    ensures update.NotOperator? ==> r.Rejected?
    ensures r.Applied? ==> |r.store.docs| == |st.docs| && r.store.nextOid == st.nextOid
    ensures FirstMatch(st.docs, query).None? && update.Set? ==> r == Applied(st)
    ensures r.Applied? ==> forall j :: 0 <= j < |st.docs| && r.store.docs[j] != st.docs[j] ==>
      FirstMatch(st.docs, query) == Some(j) && Patched(st.docs[j], r.store.docs[j], update.patch)
    ensures update.Set? && FirstMatch(st.docs, query).Some? ==>
      var i := FirstMatch(st.docs, query).value;
      r.Applied? <==> (IdKey in update.patch ==> IdKey in st.docs[i] && st.docs[i][IdKey] == update.patch[IdKey])
    ensures update.Set? && FirstMatch(st.docs, query).Some? && r.Applied? ==>
      var i := FirstMatch(st.docs, query).value;
      Patched(st.docs[i], r.store.docs[i], update.patch)
  {
    match update
    case NotOperator(_) => Rejected
    case Set(patch) =>
      match FirstMatch(st.docs, query)
      case None => Applied(st)
      case Some(i) =>
        if IdKey in patch && !(IdKey in st.docs[i] && st.docs[i][IdKey] == patch[IdKey]) then Rejected
        else Applied(st.(docs := st.docs[i := SetFields(st.docs[i], patch)]))
  }

  /** An applied update never gives a document a generated identifier it
      did not have, so the counter stays ahead of every stored one. */
  lemma UpdateOneKeepsIdsBelowCounter(st: Store, query: Doc, update: UpdateDoc)
    requires IdsBelowCounter(st)
    ensures UpdateOne(st, query, update).Applied? ==> IdsBelowCounter(UpdateOne(st, query, update).store)
  {
    var w := UpdateOne(st, query, update);
    if w.Applied? && update.Set? && FirstMatch(st.docs, query).Some? {
      var i := FirstMatch(st.docs, query).value;
      var after: seq<Doc> := w.store.docs;
      forall j | 0 <= j < |after| && IdKey in after[j] && after[j][IdKey].ObjectId?
        ensures after[j][IdKey].n < w.store.nextOid
      {
        if j == i {
          assert IdKey in st.docs[i] && after[i][IdKey] == st.docs[i][IdKey];
        } else {
          assert after[j] == st.docs[j];
        }
      }
    }
  }

  /** `delete_one`: remove the first matching document only. */
  function DeleteOne(st: Store, query: Doc): (r: Store)
    ensures r.nextOid == st.nextOid
    ensures FirstMatch(st.docs, query).None? ==> r == st
    ensures FirstMatch(st.docs, query).Some? ==>
      var i := FirstMatch(st.docs, query).value;
      && |r.docs| == |st.docs| - 1
      && (forall j :: 0 <= j < i ==> r.docs[j] == st.docs[j])
      && (forall j :: i <= j < |r.docs| ==> r.docs[j] == st.docs[j + 1])
  {
    match FirstMatch(st.docs, query)
    case None => st
    case Some(i) => st.(docs := st.docs[..i] + st.docs[i + 1..])
  }

  /** Removing one document loses exactly that document: the multiset of
      documents shrinks by it and nothing else. */
  lemma DeleteOneRemovesOnlyTheMatch(st: Store, query: Doc)
    requires FirstMatch(st.docs, query).Some?
    ensures var i := FirstMatch(st.docs, query).value;
      multiset(DeleteOne(st, query).docs) + multiset{st.docs[i]} == multiset(st.docs)
  {
    var i := FirstMatch(st.docs, query).value;
    assert DeleteOne(st, query).docs == st.docs[..i] + st.docs[i + 1..];
    MultisetWithout(st.docs, i);
  }

  /** Deleting a document keeps the counter ahead of the identifiers left. */
  lemma DeleteOneKeepsIdsBelowCounter(st: Store, query: Doc)
    requires IdsBelowCounter(st)
    ensures IdsBelowCounter(DeleteOne(st, query))
  {
    var r := DeleteOne(st, query);
    if FirstMatch(st.docs, query).Some? {
      var i := FirstMatch(st.docs, query).value;
      forall j | 0 <= j < |r.docs| && IdKey in r.docs[j] && r.docs[j][IdKey].ObjectId?
        ensures r.docs[j][IdKey].n < r.nextOid
      {
        if j < i {
          assert r.docs[j] == st.docs[j];
        } else {
          assert r.docs[j] == st.docs[j + 1];
        }
      }
    }
  }

  lemma MultisetWithout(docs: seq<Doc>, i: nat)
    requires i < |docs|
    ensures multiset(docs[..i] + docs[i + 1..]) + multiset{docs[i]} == multiset(docs)
  {
    var before, after := docs[..i], docs[i + 1..];
    assert docs == before + [docs[i]] + after;
    calc {
      multiset(docs);
      multiset(before + [docs[i]] + after);
      multiset(before) + multiset{docs[i]} + multiset(after);
    }
  }

  /** `insert_many` (ordered): insert each document in turn; a refusal
      aborts the batch. */
  function InsertMany(st: Store, batch: seq<Doc>): (r: Write)
    ensures r.Applied? ==> |r.store.docs| == |st.docs| + |batch| && r.store.docs[..|st.docs|] == st.docs
    ensures r.Applied? ==> forall j :: 0 <= j < |batch| ==>
      Stamped(r.store.docs[|st.docs| + j], batch[j])
    decreases |batch|
  {
    if |batch| == 0 then Applied(st)
    else match InsertOne(st, batch[0])
      case Rejected => Rejected
      case Applied(st') =>
        InsertManyShift(st, st', batch, InsertMany(st', batch[1..]));
        InsertMany(st', batch[1..])
  }

  /** The documents a batch leaves after its first insert are, shifted by
      one, the documents the whole batch leaves. */
  lemma InsertManyShift(st: Store, st': Store, batch: seq<Doc>, rest: Write)
    requires |batch| > 0 && st'.docs == st.docs + [Stamp(st, batch[0])]
    requires rest.Applied? ==> |rest.store.docs| == |st'.docs| + |batch| - 1 && rest.store.docs[..|st'.docs|] == st'.docs
    requires rest.Applied? ==> forall j :: 0 <= j < |batch| - 1 ==>
      Stamped(rest.store.docs[|st'.docs| + j], batch[1..][j])
    ensures rest.Applied? ==> forall j :: 0 <= j < |batch| ==>
      Stamped(rest.store.docs[|st.docs| + j], batch[j])
  {
    if rest.Applied? {
      var after := rest.store.docs;
      forall j | 0 <= j < |batch|
        ensures Stamped(after[|st.docs| + j], batch[j])
      {
        if j == 0 {
          assert after[|st.docs|] == after[..|st'.docs|][|st.docs|];
        } else {
          assert batch[1..][j - 1] == batch[j];
          assert |st.docs| + j == |st'.docs| + (j - 1);
        }
      }
    }
  }

  /** An ordered batch of documents without `_id` is stored whole: each
      document keeps its fields and gets a generated identifier. */
  lemma {:induction false} FreshInsertManySucceeds(st: Store, batch: seq<Doc>)
    requires IdsBelowCounter(st)
    requires forall j :: 0 <= j < |batch| ==> IdKey !in batch[j]
    ensures InsertMany(st, batch).Applied?
    ensures var r := InsertMany(st, batch).store;
      && IdsBelowCounter(r)
      && |r.docs| == |st.docs| + |batch|
      && r.docs[..|st.docs|] == st.docs
      && (forall j :: 0 <= j < |batch| ==> StoredAs(r.docs[|st.docs| + j], batch[j]))
      // the identifiers are drawn from the counter in turn, so each is new and no two coincide
      && r.nextOid == st.nextOid + |batch|
      && forall i :: |st.docs| <= i < |r.docs| ==> GeneratedAt(r.docs[i], st.nextOid + (i - |st.docs|))
    decreases |batch|
  {
    if |batch| > 0 {
      FreshInsertSucceeds(st, batch[0]);
      var st' := InsertOne(st, batch[0]).store;
      FreshInsertManySucceeds(st', batch[1..]);
      var r := InsertMany(st, batch).store;
      assert r == InsertMany(st', batch[1..]).store;
      assert r.docs[..|st'.docs|] == st'.docs;
      forall j | 0 <= j < |batch|
        ensures StoredAs(r.docs[|st.docs| + j], batch[j])
      {
        if j == 0 {
          assert r.docs[|st.docs|] == st'.docs[|st.docs|];
          assert batch[0] - {IdKey} == batch[0];
        } else {
          assert batch[1..][j - 1] == batch[j];
          assert |st.docs| + j == |st'.docs| + (j - 1);
        }
      }
      assert r.docs[..|st.docs|] == st'.docs[..|st.docs|];
      forall i | |st.docs| <= i < |r.docs|
        ensures GeneratedAt(r.docs[i], st.nextOid + (i - |st.docs|))
      {
        if i == |st.docs| {
          assert r.docs[i] == st'.docs[i];
        }
      }
    }
  }
}

=== FILE: documents.dfy ===
/**
 Field values and documents of the product collection, and the equality
 filters that the backend passes to the document store.
 */
module Documents {

  datatype Option<T> = None | Some(value: T)

  /** A stored field value. `Nan` is the float NaN that pandas writes into a
      table cell whose record lacks that field. */
  datatype Value =
    | Null
    | Int(i: int)
    | Num(r: real)
    | Str(s: string)
    | ObjectId(n: nat)
    | Nan

  /** A document (and a table record): field name to value. */
  type Doc = map<string, Value>

  /** The storage-internal identifier field, generated by the store. */
  const IdKey: string := "_id"

  const ProductId: string := "product_id"
  const ProductName: string := "product_name"
  const ProductPrice: string := "product_price"
  const ProductQuantity: string := "product_quantity"

  /** Equality as an equality filter sees it: integers and doubles compare
      numerically, everything else structurally. */
  predicate SameValue(a: Value, b: Value) {
    match (a, b)
    case (Int(i), Num(r)) => i as real == r
    case (Num(r), Int(i)) => i as real == r
    case _ => a == b
  }

  /** One field of an equality filter: a null in the filter also matches a
      document that lacks the field. */
  predicate FieldMatches(d: Doc, k: string, v: Value) {
    if k in d then SameValue(d[k], v) else v == Null
  }

  /** `d` satisfies the equality filter `query`. */
  predicate Matches(d: Doc, query: Doc) {
    forall k :: k in query ==> FieldMatches(d, k, query[k])
  }

  /** `after` is `before` with the fields of `patch` set: the patched keys
      take the patch's values and every other field is untouched. */
  ghost predicate Patched(before: Doc, after: Doc, patch: Doc) {
    && after.Keys == before.Keys + patch.Keys
    && (forall k :: k in patch ==> after[k] == patch[k])
    && (forall k :: k in before && k !in patch ==> after[k] == before[k])
  }

  /** The `$set` operator applied to one document. */
  function SetFields(d: Doc, patch: Doc): (r: Doc)
    ensures Patched(d, r, patch)
  {
    d + patch
  }

  lemma EmptyFilterMatchesAll(d: Doc)
    ensures Matches(d, map[])
  {
  }
}

=== FILE: driver.dfy ===
/**
 Start-up provisioning: the application user is registered once, and a
 collection that does not exist yet is seeded with 100 blank products.
 */
module Driver {
  import opened Documents
  import opened Collection
  import opened Backend
  import opened Frontend

  const SeedCount: nat := 100

  /** The blank product with id `i`. */
  function SeedEntry(i: int): Doc {
    map[ProductId := Int(i), ProductName := Str(""), ProductPrice := Int(0), ProductQuantity := Int(0)]
  }

  /** `list` is the seed list: entry `i` is the blank product with id `i`,
      for `i` from 0 to 99. */
  ghost predicate IsSeedList(list: seq<Doc>) {
    |list| == SeedCount && forall i :: 0 <= i < |list| ==> list[i] == SeedEntry(i)
  }

  /** The list as the start-up code builds it: one append per id, counting up. */
  method BuildSeedList() returns (toInsert: seq<Doc>)
    ensures IsSeedList(toInsert)
  {
    toInsert := [];
    var i := 0;
    while i < SeedCount
      invariant 0 <= i <= SeedCount
      invariant |toInsert| == i
      invariant forall j :: 0 <= j < i ==> toInsert[j] == SeedEntry(j)
    {
      toInsert := toInsert + [SeedEntry(i)];
      i := i + 1;
    }
  }

  /** Each seed entry is a blank product whose id is its position, with no
      storage identifier of its own. */
  lemma SeedListShape(list: seq<Doc>)
    requires IsSeedList(list)
    ensures |list| == 100
    ensures forall i :: 0 <= i < |list| ==>
      && list[i].Keys == {ProductId, ProductName, ProductPrice, ProductQuantity}
      && list[i][ProductId] == Int(i)
      && list[i][ProductName] == Str("")
      && list[i][ProductPrice] == Int(0)
      && list[i][ProductQuantity] == Int(0)
  {
  }

  /** The seed ids strictly increase along the list, so no two coincide. */
  lemma SeedIdsIncrease(list: seq<Doc>)
    requires IsSeedList(list)
    ensures forall i, j :: 0 <= i < j < |list| ==> list[i][ProductId].i < list[j][ProductId].i
    ensures forall i, j :: 0 <= i < |list| && 0 <= j < |list| && i != j ==>
      list[i][ProductId] != list[j][ProductId]
  {
  }

  /** What a freshly seeded collection holds: the seed list in order,
      each entry with a generated identifier. */
  ghost predicate Seeded(st: Store) {
    && |st.docs| == SeedCount
    && IdsBelowCounter(st)
    && forall i :: 0 <= i < SeedCount ==> StoredAs(st.docs[i], SeedEntry(i))
  }

  /** The collection after start-up: an existing one is left alone; an
      absent one is created and `toInsert` is inserted into it in order. */
  function Seed(existing: Option<Store>, toInsert: seq<Doc>): (r: Write)
    ensures existing.Some? ==> r == Applied(existing.value)
    ensures existing.None? && (forall j :: 0 <= j < |toInsert| ==> IdKey !in toInsert[j]) ==>
      && r.Applied?
      && IdsBelowCounter(r.store)
      && |r.store.docs| == |toInsert|
      && forall j :: 0 <= j < |toInsert| ==> StoredAs(r.store.docs[j], toInsert[j])
  {
    match existing
    case Some(st) => Applied(st)
    case None =>
      if forall j :: 0 <= j < |toInsert| ==> IdKey !in toInsert[j] then
        FreshInsertManySucceeds(EmptyStore, toInsert);
        InsertMany(EmptyStore, toInsert)
      else InsertMany(EmptyStore, toInsert)
  }

  /** The user registry after start-up: the user is created only when no
      user of that name is registered. */
  function Register(users: set<string>, name: string): (r: set<string>)
    ensures name in r
    ensures name in users ==> r == users
    ensures r - {name} == users - {name}
  {
    if name in users then users else users + {name}
  }

  /** Running start-up again registers nobody new. */
  lemma RegisterIsIdempotent(users: set<string>, name: string)
    ensures Register(Register(users, name), name) == Register(users, name)
  {
  }

  /** `start`, up to launching the dashboard: register the user, then seed
      the collection if it does not exist yet. */
  method Start(users: set<string>, username: string, existing: Option<Store>)
    returns (registered: set<string>, collection: Store)
    ensures registered == Register(users, username)
    ensures existing.Some? ==> collection == existing.value
    ensures existing.None? ==> Seeded(collection)
  {
    registered := Register(users, username);
    match existing {
      case Some(st) =>
        collection := st;
      case None =>
        var toInsert := BuildSeedList();
        SeedListShape(toInsert);
        var w := Seed(None, toInsert);
        collection := w.store;
    }
  }

  /** In a seeded table the first row carries a `product_id` and the last
      row's is 99. */
  lemma SeededTableEndsAt99(st: Store)
    requires Seeded(st)
    ensures var rows := ToRecords(st.docs).rows;
      |rows| == SeedCount && ProductId in rows[0] && Cell(rows[|rows| - 1], ProductId) == Int(99)
  {
    var p := ToRecords(st.docs);
    assert StoredAs(st.docs[0], SeedEntry(0));
    StoredFieldsKept(st.docs[0], SeedEntry(0), ProductId);
    assert ProductId in p.rows[0];
    assert StoredAs(st.docs[99], SeedEntry(99));
    StoredFieldsKept(st.docs[99], SeedEntry(99), ProductId);
    assert p.rows[99][ProductId] == Int(99);
  }

  /** Seeding, then reading the table and pressing Add: the new product
      gets id 100, one past the last seeded id. */
  lemma SeededAddAssignsId100(st: Store, form: Form, ps: Parsers)
    requires Seeded(st)
    requires ParsePrice(ps, form.price).Some? && ParseQuantity(ps, form.quantity).Some?
    ensures var r := ButtonPressed(Session(true, st), 0, 0, 1, form, ps, ToRecords(st.docs).rows, [0]);
      && r.Returned?
      && |r.session.store.docs| == SeedCount + 1
      && r.session.store.docs[..SeedCount] == st.docs
      && r.session.store.docs[SeedCount][ProductId] == Int(100)
  {
    var rows := ToRecords(st.docs).rows;
    SeededTableEndsAt99(st);
    assert Locatable(rows, [0]) by {
      assert HasColumn(rows, ProductId) by { assert ProductId in rows[0]; }
    }
    AddFollowsLastRow(Session(true, st), form, ps, rows, [0], 99);
    var r := ButtonPressed(Session(true, st), 0, 0, 1, form, ps, rows, [0]);
    var added := r.session.store.docs[SeedCount];
    assert (added - {IdKey})[ProductId] == Int(100);
  }
}

=== FILE: frontend.dfy ===
/**
 The dashboard callbacks: the action reconciler behind the Update, Delete
 and Add buttons, the login/logout toggle, and the row highlighting.
 */
module Frontend {
  import opened Documents
  import opened Collection
  import opened Backend

  /** The modification form; `None` for a field that was never filled in. */
  datatype Form = Form(name: Option<string>, price: Option<string>, quantity: Option<string>)

  /** `float()` and `int()` on a form string: `None` where they raise. */
  datatype Parsers = Parsers(price: string -> Option<real>, quantity: string -> Option<int>)

  function ParsePrice(ps: Parsers, text: Option<string>): Option<real> {
    match text
    case None => None
    case Some(t) => ps.price(t)
  }

  function ParseQuantity(ps: Parsers, text: Option<string>): Option<int> {
    match text
    case None => None
    case Some(t) => ps.quantity(t)
  }

  /** The stored name: the text, or null when the field was never filled. */
  function NameValue(name: Option<string>): Value {
    match name
    case None => Null
    case Some(t) => Str(t)
  }

  const HighlightColor: string := "#348AA7"
  const InvalidCredentials: string := "Invalid Credentials!"

  // ---------------------------------------------------------------------
  // Locating the selected row in the displayed table
  // ---------------------------------------------------------------------

  /** A positional index the table frame accepts: negative ones count from the end. */
  predicate InFrame(n: nat, i: int) {
    -(n as int) <= i < n
  }

  function Resolve(n: nat, i: int): (k: nat)
    requires InFrame(n, i)
    ensures k < n
  {
    if i < 0 then n + i else i
  }

  /** Some displayed record carries the field, so the frame has that column. */
  predicate HasColumn(rows: seq<Doc>, k: string) {
    exists j :: 0 <= j < |rows| && k in rows[j]
  }

  /** A cell of the frame: NaN where this record lacks the column. */
  function Cell(row: Doc, k: string): Value {
    if k in row then row[k] else Nan
  }

  /** The selected rows can be located and their `product_id` read. */
  predicate Locatable(rows: seq<Doc>, selected: seq<int>) {
    && HasColumn(rows, ProductId)
    && forall j :: 0 <= j < |selected| ==> InFrame(|rows|, selected[j])
  }

  /** The `product_id` of the first selected row. */
  function SelectedId(rows: seq<Doc>, selected: seq<int>): Value
    requires Locatable(rows, selected) && |selected| > 0
  {
    Cell(rows[Resolve(|rows|, selected[0])], ProductId)
  }

  /** The last displayed id plus one, when that addition goes through. */
  function Successor(v: Value): Option<Value> {
    match v
    case Int(k) => Some(Int(k + 1))
    case Num(x) => Some(Num(x + 1.0))
    case Nan => Some(Nan)
    case _ => None
  }

  /** The name, price and quantity fields written by Update and Add. */
  function ProductFields(name: Option<string>, price: real, quantity: int): Doc {
    map[ProductName := NameValue(name), ProductPrice := Num(price), ProductQuantity := Int(quantity)]
  }

  // ---------------------------------------------------------------------
  // The action reconciler
  // ---------------------------------------------------------------------

  /** The single store call an invocation makes, if any. */
  datatype Mutation =
    | NoMutation
    | UpdateBy(query: Doc, update: UpdateDoc)
    | DeleteBy(query: Doc)
    | InsertDoc(doc: Doc)

  /** What an invocation decides before touching the store: an uncaught
      error, or one mutation and the message printed while deciding. */
  datatype Plan = Crash | Planned(mutation: Mutation, report: Report)

  /** The decision part of `button_pressed` for a logged-in user. */
  function PlanAction(updateClicks: int, deleteClicks: int, addClicks: int, form: Form, ps: Parsers,
                      rows: seq<Doc>, selected: seq<int>): (p: Plan)
    // the selected row is located outside any try block, and so is the delete's id
    ensures p.Crash? <==> !Locatable(rows, selected) || (updateClicks != 1 && deleteClicks == 1 && |selected| == 0)
    // the priority: update, then delete, then add
    ensures p.Planned? && p.mutation.UpdateBy? ==> updateClicks == 1
    ensures p.Planned? ==> (p.mutation.DeleteBy? <==> updateClicks != 1 && deleteClicks == 1)
    ensures p.Planned? && p.mutation.InsertDoc? ==> updateClicks != 1 && deleteClicks != 1 && addClicks == 1
    ensures p.Planned? && updateClicks != 1 && deleteClicks != 1 && addClicks != 1 ==> p == Planned(NoMutation, Quiet)
    // a field that does not parse aborts Update and Add before any store call
    ensures p.Planned? && updateClicks == 1 ==>
      (p.mutation.UpdateBy? <==>
        ParsePrice(ps, form.price).Some? && ParseQuantity(ps, form.quantity).Some? && |selected| > 0)
    ensures p.Planned? && updateClicks != 1 && deleteClicks != 1 && addClicks == 1 ==>
      (p.mutation.InsertDoc? <==>
        && ParsePrice(ps, form.price).Some? && ParseQuantity(ps, form.quantity).Some?
        && Successor(Cell(rows[|rows| - 1], ProductId)).Some?)
    ensures p.Planned? && p.mutation.NoMutation? && (updateClicks == 1 || (deleteClicks != 1 && addClicks == 1)) ==>
      p.report == CannotConvert
    ensures p.Planned? && !p.mutation.NoMutation? ==> p.report == Quiet
    // Update: keyed by the selected row's id, setting name, price and quantity only
    ensures p.Planned? && p.mutation.UpdateBy? ==>
      && p.mutation.query.Keys == {ProductId}
      && p.mutation.query[ProductId] == SelectedId(rows, selected)
      && p.mutation.update.Set?
      && p.mutation.update.patch.Keys == {ProductName, ProductPrice, ProductQuantity}
      && p.mutation.update.patch[ProductName] == NameValue(form.name)
      && p.mutation.update.patch[ProductPrice] == Num(ParsePrice(ps, form.price).value)
      && p.mutation.update.patch[ProductQuantity] == Int(ParseQuantity(ps, form.quantity).value)
    // Delete: keyed by the selected row's id, never by an empty filter
    ensures p.Planned? && p.mutation.DeleteBy? ==>
      && p.mutation.query.Keys == {ProductId}
      && p.mutation.query[ProductId] == SelectedId(rows, selected)
    // Add: the last displayed row's id plus one, with the form's fields
    ensures p.Planned? && p.mutation.InsertDoc? ==>
      && p.mutation.doc.Keys == {ProductId, ProductName, ProductPrice, ProductQuantity}
      && p.mutation.doc[ProductId] == Successor(Cell(rows[|rows| - 1], ProductId)).value
      && p.mutation.doc[ProductName] == NameValue(form.name)
      && p.mutation.doc[ProductPrice] == Num(ParsePrice(ps, form.price).value)
      && p.mutation.doc[ProductQuantity] == Int(ParseQuantity(ps, form.quantity).value)
  {
    if !Locatable(rows, selected) then Crash
    else
      var price := ParsePrice(ps, form.price);
      var quantity := ParseQuantity(ps, form.quantity);
      if updateClicks == 1 then
        if price.None? || quantity.None? || |selected| == 0 then Planned(NoMutation, CannotConvert)
        else
          var query := map[ProductId := SelectedId(rows, selected)];
          Planned(UpdateBy(query, Set(ProductFields(form.name, price.value, quantity.value))), Quiet)
      else if deleteClicks == 1 then
        if |selected| == 0 then Crash
        else Planned(DeleteBy(map[ProductId := SelectedId(rows, selected)]), Quiet)
      else if addClicks == 1 then
        var next := Successor(Cell(rows[|rows| - 1], ProductId));
        if price.None? || quantity.None? || next.None? then Planned(NoMutation, CannotConvert)
        else Planned(InsertDoc(ProductFields(form.name, price.value, quantity.value)[ProductId := next.value]), Quiet)
      else Planned(NoMutation, Quiet)
  }

  /** Issue the planned mutation through the backend. */
  function Perform(s: Session, m: Mutation): (r: Step)
    ensures r.session.loggedIn == s.loggedIn
  {
    match m
    case NoMutation => Step(s, Quiet)
    case UpdateBy(query, update) => Update(s, query, update)
    case DeleteBy(query) => Delete(s, Some(query))
    case InsertDoc(doc) => Create(s, doc)
  }

  /** The callback's result: an uncaught error (no output is updated), or
      the table data, the columns and the three click counters. */
  datatype ButtonOutcome =
    | Crashed
    | Returned(session: Session, data: Option<seq<Doc>>, columns: set<string>,
               updateClicks: int, deleteClicks: int, addClicks: int, report: Report)

  /** `button_pressed`. */
  function ButtonPressed(s: Session, updateClicks: int, deleteClicks: int, addClicks: int, form: Form,
                         ps: Parsers, rows: seq<Doc>, selected: seq<int>): (r: ButtonOutcome)
    ensures !s.loggedIn ==> r == Returned(s, None, {}, 0, 0, 0, Quiet)
    ensures r.Crashed? <==>
      s.loggedIn && (!Locatable(rows, selected) || (updateClicks != 1 && deleteClicks == 1 && |selected| == 0))
    ensures r.Returned? ==> r.updateClicks == 0 && r.deleteClicks == 0 && r.addClicks == 0
    ensures r.Returned? ==> r.session.loggedIn == s.loggedIn
    // the table handed back is a fresh read of the store as it is afterwards
    ensures r.Returned? && s.loggedIn ==>
      && r.data == Some(ToRecords(r.session.store.docs).rows)
      && r.columns == ToRecords(r.session.store.docs).columns
  {
    if !s.loggedIn then Returned(s, None, {}, 0, 0, 0, Quiet)
    else match PlanAction(updateClicks, deleteClicks, addClicks, form, ps, rows, selected)
      case Crash => Crashed
      case Planned(m, report) =>
        var step := Perform(s, m);
        ReadAllIsStore(step.session);
        var table := ToRecords(Read(step.session, map[]).value);
        Returned(step.session, Some(table.rows), table.columns, 0, 0, 0,
                 if report == Quiet then step.report else report)
  }

  // ---------------------------------------------------------------------
  // Properties of the reconciler
  // ---------------------------------------------------------------------

  /** A logged-in invocation that does not crash ends in the state the
      planned mutation leaves. */
  lemma ButtonPressedPerformsPlan(s: Session, updateClicks: int, deleteClicks: int, addClicks: int,
                                  form: Form, ps: Parsers, rows: seq<Doc>, selected: seq<int>)
    requires s.loggedIn
    requires PlanAction(updateClicks, deleteClicks, addClicks, form, ps, rows, selected).Planned?
    ensures var p := PlanAction(updateClicks, deleteClicks, addClicks, form, ps, rows, selected);
      var r := ButtonPressed(s, updateClicks, deleteClicks, addClicks, form, ps, rows, selected);
      && r.Returned?
      && r.session == Perform(s, p.mutation).session
      && r.report == (if p.report == Quiet then Perform(s, p.mutation).report else p.report)
  {
  }

  predicate AppendedOne(before: seq<Doc>, after: seq<Doc>) {
    |after| == |before| + 1 && after[..|before|] == before
  }

  predicate ReplacedAt(before: seq<Doc>, after: seq<Doc>, i: int) {
    && 0 <= i < |before|
    && |after| == |before|
    && forall j :: 0 <= j < |before| && j != i ==> after[j] == before[j]
  }

  predicate RemovedAt(before: seq<Doc>, after: seq<Doc>, i: int) {
    0 <= i < |before| && after == before[..i] + before[i + 1..]
  }

  /** The collection changed by at most one single-document write. */
  ghost predicate AtMostOneDocChanged(before: seq<Doc>, after: seq<Doc>) {
    || after == before
    || AppendedOne(before, after)
    || (exists i :: ReplacedAt(before, after, i))
    || (exists i :: RemovedAt(before, after, i))
  }

  /** Issuing one mutation writes at most one document. */
  lemma PerformWritesAtMostOne(s: Session, m: Mutation)
    ensures AtMostOneDocChanged(s.store.docs, Perform(s, m).session.store.docs)
  {
    var before, after := s.store.docs, Perform(s, m).session.store.docs;
    if after != before {
      match m
      case NoMutation =>
      case InsertDoc(doc) =>
        assert AppendedOne(before, after);
      case UpdateBy(query, update) =>
        var i :| 0 <= i < |before| && after[i] != before[i];
        assert ReplacedAt(before, after, i);
      case DeleteBy(query) =>
        var i := FirstMatch(before, query).value;
        assert RemovedAt(before, after, i);
    }
  }

  /** One invocation writes at most one document. */
  lemma ButtonPressedWritesAtMostOne(s: Session, updateClicks: int, deleteClicks: int, addClicks: int,
                                     form: Form, ps: Parsers, rows: seq<Doc>, selected: seq<int>)
    ensures var r := ButtonPressed(s, updateClicks, deleteClicks, addClicks, form, ps, rows, selected);
      r.Returned? ==> AtMostOneDocChanged(s.store.docs, r.session.store.docs)
  {
    var p := PlanAction(updateClicks, deleteClicks, addClicks, form, ps, rows, selected);
    if s.loggedIn && p.Planned? {
      ButtonPressedPerformsPlan(s, updateClicks, deleteClicks, addClicks, form, ps, rows, selected);
      PerformWritesAtMostOne(s, p.mutation);
    }
  }

  /** A price or quantity that does not parse leaves the store untouched
      on Update and on Add. */
  lemma UnparsableFieldsWriteNothing(s: Session, updateClicks: int, deleteClicks: int, addClicks: int,
                                     form: Form, ps: Parsers, rows: seq<Doc>, selected: seq<int>)
    requires updateClicks == 1 || (deleteClicks != 1 && addClicks == 1)
    requires ParsePrice(ps, form.price).None? || ParseQuantity(ps, form.quantity).None?
    ensures var r := ButtonPressed(s, updateClicks, deleteClicks, addClicks, form, ps, rows, selected);
      r.Returned? ==> r.session == s && (s.loggedIn ==> r.report == CannotConvert)
  {
  }

  /** Update touches at most the first document whose `product_id` matches
      the selected row's, and only its name, price and quantity: no
      `product_id`, `_id` or other field of any document changes. */
  lemma UpdateKeepsOtherFields(s: Session, deleteClicks: int, addClicks: int,
                               form: Form, ps: Parsers, rows: seq<Doc>, selected: seq<int>, j: int, k: string)
    requires 0 <= j < |s.store.docs|
    requires k != ProductName && k != ProductPrice && k != ProductQuantity
    ensures var r := ButtonPressed(s, 1, deleteClicks, addClicks, form, ps, rows, selected);
      r.Returned? ==>
        && |r.session.store.docs| == |s.store.docs|
        && (k in r.session.store.docs[j] <==> k in s.store.docs[j])
        && (k in s.store.docs[j] ==> r.session.store.docs[j][k] == s.store.docs[j][k])
        && (r.session.store.docs[j] != s.store.docs[j] ==>
              FirstMatch(s.store.docs, map[ProductId := SelectedId(rows, selected)]) == Some(j))
  {
    var r := ButtonPressed(s, 1, deleteClicks, addClicks, form, ps, rows, selected);
    var p := PlanAction(1, deleteClicks, addClicks, form, ps, rows, selected);
    if r.Returned? && s.loggedIn {
      ButtonPressedPerformsPlan(s, 1, deleteClicks, addClicks, form, ps, rows, selected);
      if p.mutation.UpdateBy? {
        var patch := p.mutation.update.patch;
        assert k !in patch;
        var after := Update(s, p.mutation.query, p.mutation.update).session.store.docs;
        assert r.session.store.docs == after;
        if after[j] != s.store.docs[j] {
          assert Patched(s.store.docs[j], after[j], patch);
        }
      } else {
        assert r.session == s;
      }
    }
  }

  /** Update with parseable fields writes the form's name, price and
      quantity into the first document whose `product_id` matches the
      selected row's; when none matches, the store is left as it was. */
  lemma UpdateSetsSelectedFields(s: Session, deleteClicks: int, addClicks: int,
                                 form: Form, ps: Parsers, rows: seq<Doc>, selected: seq<int>)
    requires s.loggedIn && Locatable(rows, selected) && |selected| > 0
    requires ParsePrice(ps, form.price).Some? && ParseQuantity(ps, form.quantity).Some?
    ensures var r := ButtonPressed(s, 1, deleteClicks, addClicks, form, ps, rows, selected);
      && r.Returned?
      && r.report == Quiet
      && |r.session.store.docs| == |s.store.docs|
      && match FirstMatch(s.store.docs, map[ProductId := SelectedId(rows, selected)])
         case None => r.session.store == s.store
         case Some(i) =>
           && r.session.store.docs[i].Keys == s.store.docs[i].Keys + {ProductName, ProductPrice, ProductQuantity}
           && r.session.store.docs[i][ProductName] == NameValue(form.name)
           && r.session.store.docs[i][ProductPrice] == Num(ParsePrice(ps, form.price).value)
           && r.session.store.docs[i][ProductQuantity] == Int(ParseQuantity(ps, form.quantity).value)
  {
    var p := PlanAction(1, deleteClicks, addClicks, form, ps, rows, selected);
    assert p.mutation.UpdateBy?;
    ButtonPressedPerformsPlan(s, 1, deleteClicks, addClicks, form, ps, rows, selected);
    var patch := p.mutation.update.patch;
    assert IdKey !in patch;
  }

  /** Delete removes the first document whose `product_id` matches the
      selected row's, and nothing else. */
  lemma DeleteRemovesSelected(s: Session, addClicks: int, form: Form, ps: Parsers,
                              rows: seq<Doc>, selected: seq<int>)
    requires s.loggedIn && Locatable(rows, selected) && |selected| > 0
    ensures var r := ButtonPressed(s, 0, 1, addClicks, form, ps, rows, selected);
      && r.Returned?
      && match FirstMatch(s.store.docs, map[ProductId := SelectedId(rows, selected)])
         case None => r.session.store == s.store
         case Some(i) => r.session.store.docs == s.store.docs[..i] + s.store.docs[i + 1..]
  {
  }

  /** Add gives the new product the id of the LAST displayed row plus one
      (not the largest id in the store) and appends exactly that document. */
  lemma AddFollowsLastRow(s: Session, form: Form, ps: Parsers, rows: seq<Doc>, selected: seq<int>, k: int)
    requires s.loggedIn && IdsBelowCounter(s.store) && Locatable(rows, selected)
    requires ParsePrice(ps, form.price).Some? && ParseQuantity(ps, form.quantity).Some?
    requires Cell(rows[|rows| - 1], ProductId) == Int(k)
    ensures var r := ButtonPressed(s, 0, 0, 1, form, ps, rows, selected);
      && r.Returned?
      && r.report == Quiet
      && AppendedOne(s.store.docs, r.session.store.docs)
      && StoredAs(r.session.store.docs[|s.store.docs|],
                  ProductFields(form.name, ParsePrice(ps, form.price).value,
                                ParseQuantity(ps, form.quantity).value)[ProductId := Int(k + 1)])
  {
    var p := PlanAction(0, 0, 1, form, ps, rows, selected);
    assert p.mutation.InsertDoc?;
    var doc := p.mutation.doc;
    assert doc == ProductFields(form.name, ParsePrice(ps, form.price).value,
                                ParseQuantity(ps, form.quantity).value)[ProductId := Int(k + 1)];
    CreateAppendsOne(s, doc);
    ButtonPressedPerformsPlan(s, 0, 0, 1, form, ps, rows, selected);
  }

  /** Because Add follows the last DISPLAYED row rather than the largest
      id, a table whose last row is not the largest (sorted or filtered in
      the browser) makes Add reuse an id the store already holds. */
  lemma AddCanReuseStoredId(s: Session, form: Form, ps: Parsers, rows: seq<Doc>, selected: seq<int>,
                            k: int, j: int)
    requires s.loggedIn && IdsBelowCounter(s.store) && Locatable(rows, selected)
    requires ParsePrice(ps, form.price).Some? && ParseQuantity(ps, form.quantity).Some?
    requires Cell(rows[|rows| - 1], ProductId) == Int(k)
    requires 0 <= j < |s.store.docs| && ProductId in s.store.docs[j] && s.store.docs[j][ProductId] == Int(k + 1)
    ensures var r := ButtonPressed(s, 0, 0, 1, form, ps, rows, selected);
      && r.Returned?
      && |r.session.store.docs| == |s.store.docs| + 1
      && r.session.store.docs[j] == s.store.docs[j]
      && ProductId in r.session.store.docs[|s.store.docs|]
      && r.session.store.docs[|s.store.docs|][ProductId] == s.store.docs[j][ProductId]
  {
    var r := ButtonPressed(s, 0, 0, 1, form, ps, rows, selected);
    var data := ProductFields(form.name, ParsePrice(ps, form.price).value,
                              ParseQuantity(ps, form.quantity).value)[ProductId := Int(k + 1)];
    AddFollowsLastRow(s, form, ps, rows, selected, k);
    assert r.Returned? && AppendedOne(s.store.docs, r.session.store.docs)
      && StoredAs(r.session.store.docs[|s.store.docs|], data);
    var after := r.session.store.docs;
    StoredFieldsKept(after[|s.store.docs|], data, ProductId);
    assert after[..|s.store.docs|][j] == s.store.docs[j];
  }

  /** No mutation the reconciler plans names an `_id`, so issuing one keeps
      every generated identifier below the store's counter. */
  lemma PerformKeepsIdsBelowCounter(s: Session, m: Mutation)
    requires IdsBelowCounter(s.store)
    requires m.InsertDoc? ==> IdKey !in m.doc
    ensures IdsBelowCounter(Perform(s, m).session.store)
  {
    match m
    case NoMutation =>
    case InsertDoc(doc) =>
    case UpdateBy(query, update) =>
      UpdateOneKeepsIdsBelowCounter(s.store, query, update);
    case DeleteBy(query) =>
      DeleteOneKeepsIdsBelowCounter(s.store, query);
  }

  /** Every invocation keeps the counter ahead of the stored identifiers,
      so the lemmas about Add apply after any sequence of button presses. */
  lemma ButtonPressedKeepsIdsBelowCounter(s: Session, updateClicks: int, deleteClicks: int, addClicks: int,
                                          form: Form, ps: Parsers, rows: seq<Doc>, selected: seq<int>)
    requires IdsBelowCounter(s.store)
    ensures var r := ButtonPressed(s, updateClicks, deleteClicks, addClicks, form, ps, rows, selected);
      r.Returned? ==> IdsBelowCounter(r.session.store)
  {
    var p := PlanAction(updateClicks, deleteClicks, addClicks, form, ps, rows, selected);
    if s.loggedIn && p.Planned? {
      ButtonPressedPerformsPlan(s, updateClicks, deleteClicks, addClicks, form, ps, rows, selected);
      PerformKeepsIdsBelowCounter(s, p.mutation);
    }
  }

  // ---------------------------------------------------------------------
  // Login / logout toggle
  // ---------------------------------------------------------------------

  /** What the login callback hands back: the table, the error text, the
      button label, and whether the login inputs and the modification
      inputs are shown. */
  datatype LoginView = LoginView(session: Session, data: Option<seq<Doc>>, columns: set<string>,
                                 error: string, buttonLabel: string,
                                 loginFieldsShown: bool, modificationShown: bool)

  /** A form value Python treats as true: present and non-empty. */
  predicate Filled(text: Option<string>) {
    text.Some? && |text.value| > 0
  }

  /** `login_pressed`. `accepted` is whether the server would accept the
      credentials; `closed` whether closing the client succeeds. */
  function LoginPressed(s: Session, username: Option<string>, password: Option<string>,
                        accepted: bool, closed: bool): (r: LoginView)
    ensures r.session.store == s.store
    ensures s.loggedIn ==> (r.session.loggedIn <==> !closed)
    ensures !s.loggedIn ==> (r.session.loggedIn <==> Filled(username) && Filled(password) && accepted)
    ensures r.session.loggedIn ==>
      && r.buttonLabel == "Logout" && r.error == ""
      && !r.loginFieldsShown && r.modificationShown
      && r.data == Some(ToRecords(s.store.docs).rows)
      && r.columns == ToRecords(s.store.docs).columns
    ensures !r.session.loggedIn ==>
      && r.buttonLabel == "Login" && r.data == None && r.columns == {}
      && r.loginFieldsShown && !r.modificationShown
      && r.error == (if s.loggedIn then "" else InvalidCredentials)
  {
    var next :=
      if s.loggedIn then Logout(s, closed).session
      else if Filled(username) && Filled(password) then Login(s, accepted)
      else s;
    var error := if !s.loggedIn && !next.loggedIn then InvalidCredentials else "";
    if next.loggedIn then
      ReadAllIsStore(next);
      var table := ToRecords(Read(next, map[]).value);
      LoginView(next, Some(table.rows), table.columns, "", "Logout", false, true)
    else
      LoginView(next, None, {}, error, "Login", true, false)
  }

  /** Logging in with accepted credentials and then pressing the button
      again with a successful close returns to the logged-out session. */
  lemma LoginThenLogoutRoundTrip(s: Session, username: Option<string>, password: Option<string>)
    requires !s.loggedIn && Filled(username) && Filled(password)
    ensures var first := LoginPressed(s, username, password, true, true);
      && first.session.loggedIn && first.buttonLabel == "Logout"
      && LoginPressed(first.session, username, password, true, true).session == s
  {
  }

  /** Logging in or out never touches the store, so it keeps the counter
      ahead of the stored identifiers. */
  lemma LoginPressedKeepsIdsBelowCounter(s: Session, username: Option<string>, password: Option<string>,
                                         accepted: bool, closed: bool)
    requires IdsBelowCounter(s.store)
    ensures IdsBelowCounter(LoginPressed(s, username, password, accepted, closed).session.store)
  {
  }

  // ---------------------------------------------------------------------
  // Row highlighting
  // ---------------------------------------------------------------------

  datatype RowStyle = RowStyle(rowIndex: int, backgroundColor: string)

  function Highlights(selected: seq<int>): (r: seq<RowStyle>)
    ensures |r| == |selected|
    ensures forall i :: 0 <= i < |r| ==> r[i] == RowStyle(selected[i], HighlightColor)
  {
    if |selected| == 0 then [] else [RowStyle(selected[0], HighlightColor)] + Highlights(selected[1..])
  }

  /** `update_form`: no styles without a selection, else one highlight per
      selected index, in order. */
  function UpdateForm(selected: Option<seq<int>>): (r: seq<RowStyle>)
    ensures selected.None? ==> r == []
    ensures selected.Some? ==> |r| == |selected.value|
    ensures selected.Some? ==>
      forall i :: 0 <= i < |r| ==> r[i].rowIndex == selected.value[i] && r[i].backgroundColor == HighlightColor
  {
    match selected
    case None => []
    case Some(indices) => Highlights(indices)
  }
}
